=== FILE: README.md ===
# WhatsApp webhook relay: a Dafny model of its message handling

The service receives WhatsApp Business Cloud API webhooks, turns inbound user
messages into records in an in-memory store, applies delivery-status events to
the messages it sent earlier, sends new text messages through the Graph API, and
lists the store sorted by time. This project models that handling, without the
HTTP layer, as pure functions that take the store as a `seq<Record>` and return
the new one.

- `Wrappers`, `Strings`: optional values (absent JSON keys, Python `None`),
  Python truthiness, ASCII `str.upper()`, and Python's code-point string order.
- `Store`: the `Record` kept per message, the service configuration, and
  `Evolves`. `Evolves` is the store discipline every handler keeps: records are
  only appended, and an existing record changes only in its status fields.
- `Inbound`: the display text derived per message type, the drop rule, and
  the in-order append of a change's messages.
- `Status`: first-match correlation of a status event with an outbound record.
- `Webhook`: the walk over a POSTed payload (object, entries, changes), its
  200/500 answer, and the GET subscription handshake.
- `Send`: validation, the request built for the provider, and the record a
  successful send appends.
- `Listing`: the stable sort by timestamp and the count.

Inputs the code takes from its environment are parameters:
- `now` is the ISO time `datetime.now()` would return.
- `epochToIso` is the timezone-dependent conversion of a status timestamp. It returns `None` where `int()` or `fromtimestamp` raises, that is for a non-numeric or out-of-range epoch.
- `Reply` is the outcome of the provider call.

When a Python exception ends a request, the model returns `Aborted` with the store as it stood at that point.

Behaviours of the code that the model keeps:
- A change whose value has a `messages` key never has its `statuses` looked at, because app.py:113 is an `elif`.
- One untyped message (`None.upper()`, app.py:98) or one status timestamp that `int()` or `fromtimestamp` rejects (app.py:127) aborts the rest of the payload with a 500. What was stored before stays.
- Stored records may lack an `id`: `.get("id")` gives `None` when the message or the provider reply has none (app.py:81, app.py:167).
- A provider reply with an empty `messages` list raises `IndexError` at app.py:167. The route answers it through its generic handler as an unexpected error (500).
- The listing is `{messages, count}`.

## Model

| member | source | states |
|---|---|---|
| Strings.Upper | app.py:98 | upper-casing keeps the length, leaves no lower-case ASCII letter, maps each lower-case letter to its capital and keeps every other character |
| Inbound.DeriveText | app.py:84-98 | derivation fails exactly when the message has no type; a text message yields its body as is; the derived text is absent or empty exactly for a text message without a usable body |
| Inbound.DerivedTextByType | app.py:87-98 | image, document and video yield their prefix plus caption or file name, defaulting to "No caption" / "Unknown file"; audio yields "[Audio message]"; any other type T yields "[" + upper(T) + " message]" |
| Inbound.Normalize | app.py:79-109 | a typed message is stored iff its sender and derived text are non-empty; the stored record is inbound, carries the message's id, sender and type, the processing time and the derived text, and no recipient or status |
| Inbound.ProcessMessages | app.py:76-110 | the loop only appends (old store is a prefix, nothing existing changes) and aborts iff some message has no type |
| Inbound.ProcessMessagesAppends | app.py:76-110 | the loop appends exactly the records of the messages before the first untyped one, in list order; records appended before an abort stay |
| Inbound.NormalizedMembers | app.py:100-109 | a record is appended iff some message of the list normalises to it |
| Inbound.NormalizedConcat | app.py:76-109 | records follow message order: those of an earlier message precede those of a later one, none merged or dropped |
| Status.FirstMatch | app.py:123-124 | the scan returns the first index whose record is outbound with an equal (possibly absent) id, and None only when no record matches |
| Status.ApplyStatus | app.py:115-128 | only the first match changes: its status becomes the event's; its update time is set iff the event has a timestamp and it converts; all other fields and records and the length stay; no match leaves the store as is; a failed conversion aborts with the status already set |
| Status.ProcessStatuses | app.py:114-128 | applying a list of status events keeps the store's length and only touches status fields of outbound records (what it applies: `StatusesValues`; where an abort stops: `StatusesAbortState`) |
| Status.StatusesAbortState | app.py:114-128 | an aborted status loop ends exactly in the state its first failing event left: every earlier event completed and stays applied, and so does that event's status assignment (app.py:125) |
| Status.StatusesConcat | app.py:114-128 | running the loop over one event list and then over another is running it over their concatenation, stopping at the first failure |
| Status.StatusesBesideInbound | app.py:123-128 | over a store with inbound records appended, the status loop has the same outcome as over the old records and leaves the appended records untouched, because only outbound records match |
| Status.LastHit | app.py:114-128 | finds the last event whose id picks out a given record (optionally only among events with a timestamp), and no later event does |
| Status.LastHitStable | app.py:123-125 | which event last hits a record does not depend on status fields, so it is the same before and after any status update |
| Status.StatusesAbort | app.py:114-128 | the status loop aborts iff some event matches a record and carries a timestamp that `int()` or `fromtimestamp` rejects |
| Status.StatusesValues | app.py:114-128 | when the status loop completes, each record shows the status of the last event matching it and the converted time of the last such event with a timestamp, and keeps its old values where none matched |
| Status.FirstMatchStable | app.py:123-125 | rewriting status fields never changes which record a later event matches |
| Status.LastStatusWins | app.py:123-128 | after two completed events for one id, the matched record shows the second event's status |
| Webhook.ProcessChange | app.py:71-128 | a change whose field is not "messages" contributes nothing; a change with a `messages` key is exactly the message loop over that list, so an untyped message aborts it; a change with no `messages` key is exactly the status loop over its `statuses`, or nothing when that key is absent too; every change keeps the store discipline |
| Webhook.StatusesIgnoredBesideMessages | app.py:75-113 | once a change's value has a messages key, its statuses have no effect |
| Webhook.ProcessChanges | app.py:70-128 | the loop over an entry's changes keeps the store discipline (what it applies: `ChangesEffect`; where an abort stops: `ChangesAbortState`) |
| Webhook.ChangesEffect | app.py:70-128 | a completed change loop is the status loop over all status-only changes' events, in order, followed by appending the changes' records |
| Webhook.ChangesAbortState | app.py:70-128 | an aborted change loop ends exactly in the state its first failing change left, after every earlier change completed |
| Webhook.ProcessEntries | app.py:69-128 | the loop over the entries keeps the store discipline (what it applies: `EntriesEffect`; where an abort stops: `EntriesAbortState`) |
| Webhook.EntriesEffect | app.py:69-128 | a completed entry loop is the status loop over every entry's status events, in entry then change order, followed by appending the entries' records |
| Webhook.EntriesAbortState | app.py:69-128 | an aborted entry loop ends exactly in the state the first failing entry's change loop left, after every earlier entry completed |
| Webhook.ProcessPayload | app.py:68-128 | a payload for an object other than whatsapp_business_account leaves the store unchanged; any payload keeps the store discipline |
| Webhook.PayloadStatusesApplied | app.py:68-128 | for every payload, a completed walk leaves the records stored before it exactly as the status loop over all the payload's status events leaves them (and that loop completes), with the payload's records after them |
| Webhook.PayloadAppends | app.py:68-110 | a payload without status work or untyped messages appends exactly its records in entry, change, message order after the untouched old store |
| Webhook.ReplayAppendsTwice | app.py:69-109 | delivering the same payload without status work twice leaves the old store untouched and stores its records twice: no deduplication |
| Webhook.PayloadTail | app.py:68-128 | for every payload, status events included: a completed walk appends exactly the payload's records in entry, change, message order after the old records, and an aborted walk appends a leading part of them |
| Webhook.ReplayStoresTwice | app.py:68-128 | for every payload, when two deliveries both complete the store has gained the payload's records twice, in delivery order |
| Webhook.ReceiveWebhook | app.py:63-134 | the POST answers 200 "EVENT_RECEIVED" iff processing completed and 500 "ERROR" otherwise, with the store the walk left (which, after an abort, keeps every earlier step: `EntriesAbortState`, `ChangesAbortState`, `StatusesAbortState`, `Inbound.ProcessMessagesAppends`) |
| Webhook.VerifyAsWritten | app.py:48-61 | the handshake answers 200 with the challenge iff mode is "subscribe", the token equals the configured one (absent equals absent) and a challenge is present; 403 "Verification failed" when mode or token do not match; status 500 when only the challenge is missing |
| Webhook.UnsetTokenAcceptsAnyone | app.py:56-58 | with the verify token unset or empty, a handshake presenting the same absent or empty token is accepted as written and rejected by the corrected handshake |
| Webhook.Verify | app.py:56-61 | the corrected handshake succeeds only against a configured non-empty token (the program's own test of configuration, app.py:41 and app.py:217) and otherwise agrees with the code |
| Send.StatusCode | app.py:147-190 | success answers 200, missing inputs 400, provider and unexpected errors 500 |
| Send.SendMessage | app.py:143-190 | missing or empty recipient or text is rejected with no provider call and no change; otherwise the request goes to the configured endpoint; a provider failure is an upstream error carrying its detail; a reply with an empty messages list is an unexpected error; only a reply with an absent or non-empty messages list appends exactly one outbound "sent" record with the given recipient and text and the reply's first id; every failure leaves the store unchanged |
| Send.SendEvolves | app.py:169-179 | a send never touches an existing record |
| Send.StatusReachesSentRecord | app.py:123-128 | a status event with the id a send returned updates the record that send appended, when no earlier outbound record has that id |
| Listing.Sort | app.py:197 | the result is ascending by timestamp under Python string order and a permutation of the input |
| Listing.SortIsStable | app.py:197 | records with equal timestamps keep their store order |
| Listing.SortedPairwise | app.py:197 | in a sorted listing every earlier record's timestamp is at most every later one's |
| Listing.ListMessages | app.py:192-199 | the listing holds every stored record exactly once, ascending by timestamp, ties in store order, with count equal to the store size |
| Listing.ListingUnique | app.py:197 | two sequences that are sorted by timestamp, hold the same records and keep the same order among equal timestamps are equal |
| Listing.ListMessagesDetermined | app.py:192-199 | the listing's contract leaves exactly one possible result, so it pins down what Python's stable sort returns |

## Findings

| source | as written | input that shows it | evidently intended | confidence | as-written member | corrected member |
|---|---|---|---|---|---|---|
| app.py:56 | `token == WHATSAPP_VERIFY_TOKEN` compares two possibly absent or empty values | WHATSAPP_VERIFY_TOKEN unset; GET /webhook?hub.mode=subscribe&hub.challenge=c answers 200 "c" (likewise with it set empty and `hub.verify_token=`) | the handshake succeeds only against a configured, non-empty verify token | medium, not executed | Webhook.VerifyAsWritten (shown by Webhook.UnsetTokenAcceptsAnyone) | Webhook.Verify |

## Left out

- HTTP plumbing is not modelled: routing, `request.get_json`, `jsonify`, templates, and the `/`, `/health` and `/debug/messages` endpoints. A request body that is not JSON is not modelled either.
- The call to the Graph API (`requests.post`, `raise_for_status`) is not modelled. Its outcome is the `Reply` parameter.
- Environment loading, the startup configuration check and logging are not modelled. The configuration is the `Config` parameter.
- Concurrency is not modelled. Flask may serve requests on several threads that share the store without a lock; the model treats each request as running to completion before the next one starts.
- Webhook.ProcessPayload: the code reads the clock once per message. The model uses one `now` per request, because no property depends on distinct readings.
- Webhook.VerifyAsWritten: the body of the 500 answer is Flask's error page (or its debugger page under FLASK_DEBUG); only the status code is stated.
- Status.ApplyStatus: the epoch-to-ISO conversion depends on the local timezone. It is the `epochToIso` parameter, not a computation.
- Inbound.DeriveText: an explicit JSON `null` caption or file name renders as "None" in Python. The model does not separate `null` from an absent key, so it gives the default text.
- Strings.Upper: only ASCII letters are upper-cased. Python's full Unicode case mapping (for example "ß" to "SS") is not modelled.
- Send.SendMessage: the 200 body echoes the provider's whole reply. Only the message id is kept. Error bodies are modelled only for the upstream error message.
- JSON values of unexpected kinds are not modelled: a number where a string is expected, or a list element that is not an object. The only exception paths modelled are an untyped message, a status timestamp that does not convert and an empty `messages` list in the provider reply. A JSON `null` where an object or list is expected is read as an absent key (an empty list, a default text), while the code raises there and answers 500. This holds wherever `null` replaces an object or list, including:
  - `"entry": null` (`TypeError` at app.py:69) and `"changes": null` (`TypeError` at app.py:70): the model walks no entries or changes.
  - `"value": null` (`'messages' in None`, `TypeError` at app.py:75): the model processes nothing for that change.
  - `value: {"messages": null}` (`TypeError` at app.py:76): the model processes the statuses.
  - `"statuses": null` (`TypeError` at app.py:114): the model processes no events.
  - `"text": null` on a text message (`AttributeError` at app.py:88): the model drops the message and goes on.
  - `"image": null` (`AttributeError` at app.py:90): the model stores "[Image] No caption" (likewise for `document` and `video`).
  - a provider reply with `"messages": null` (`TypeError` at app.py:167, answered as an unexpected error): the model appends a record with no id.

=== FILE: inbound.dfy ===
/** Normalisation of inbound WhatsApp messages into stored records: the
    display text derived from each message type, the drop rule, and the
    order-preserving append of the surviving records. */
module Inbound {
  import opened Wrappers
  import opened Strings
  import opened Store

  /** One element of a change's `messages` list, reduced to the keys the handler
      reads: `type`, `from`, `id`, and the one sub-object field each type uses. */
  datatype InMessage = InMessage(
    msgType: Option<string>,
    sender: Option<string>,
    id: Option<string>,
    textBody: Option<string>,
    imageCaption: Option<string>,
    documentFilename: Option<string>,
    videoCaption: Option<string>)

  /** The derived display text (possibly absent), or `MissingType` for the
      `None.upper()` failure of a message that has no type at all. */
  datatype Derivation = Derived(text: Option<string>) | MissingType

  function DeriveText(m: InMessage): (d: Derivation)
    ensures d.MissingType? <==> m.msgType.None?
    ensures m.msgType == Some("text") ==> d == Derived(m.textBody)
    ensures d.Derived? && !Truthy(d.text) <==> m.msgType == Some("text") && !Truthy(m.textBody)
  {
    match m.msgType
    case None => MissingType
    case Some(t) =>
      if t == "text" then Derived(m.textBody)
      else if t == "image" then Derived(Some("[Image] " + m.imageCaption.GetOr("No caption")))
      else if t == "document" then Derived(Some("[Document] " + m.documentFilename.GetOr("Unknown file")))
      else if t == "audio" then Derived(Some("[Audio message]"))
      else if t == "video" then Derived(Some("[Video] " + m.videoCaption.GetOr("No caption")))
      else Derived(Some("[" + Upper(t) + " message]"))
  }

  /** The display text of each recognised type, the defaults for a missing
      caption or file name, and the upper-cased fallback for any other type. */
  lemma DerivedTextByType(m: InMessage)
    ensures m.msgType == Some("image") ==>
      DeriveText(m) == Derived(Some("[Image] " + m.imageCaption.GetOr("No caption")))
    ensures m.msgType == Some("image") && m.imageCaption.None? ==>
      DeriveText(m) == Derived(Some("[Image] No caption"))
    ensures m.msgType == Some("document") ==>
      DeriveText(m) == Derived(Some("[Document] " + m.documentFilename.GetOr("Unknown file")))
    ensures m.msgType == Some("document") && m.documentFilename.None? ==>
      DeriveText(m) == Derived(Some("[Document] Unknown file"))
    ensures m.msgType == Some("audio") ==> DeriveText(m) == Derived(Some("[Audio message]"))
    ensures m.msgType == Some("video") ==>
      DeriveText(m) == Derived(Some("[Video] " + m.videoCaption.GetOr("No caption")))
    ensures m.msgType == Some("video") && m.videoCaption.None? ==>
      DeriveText(m) == Derived(Some("[Video] No caption"))
    ensures m.msgType.Some? && m.msgType.value !in ["text", "image", "document", "audio", "video"] ==>
      DeriveText(m) == Derived(Some("[" + Upper(m.msgType.value) + " message]"))
  {
    assert "[Image] " + "No caption" == "[Image] No caption";
    assert "[Document] " + "Unknown file" == "[Document] Unknown file";
    assert "[Video] " + "No caption" == "[Video] No caption";
  }

  /** The record a typed message is stored as, or `None` when it is dropped. */
  function Normalize(m: InMessage, now: string): (r: Option<Record>)
    ensures r.Some? <==>
      m.msgType.Some? && Truthy(m.sender) && (m.msgType == Some("text") ==> Truthy(m.textBody))
    ensures r.Some? ==>
      && r.value.direction == In
      && r.value.id == m.id
      && r.value.sender == m.sender
      && r.value.msgType == m.msgType
      && r.value.timestamp == now
      && r.value.text == DeriveText(m).text.value
      && r.value.text != []
      && r.value.recipient.None? && r.value.status.None? && r.value.statusUpdated.None?
  {
    match DeriveText(m)
    case MissingType => None
    case Derived(text) =>
      if Truthy(m.sender) && Truthy(text) then
        Some(Record(m.id, m.sender, None, text.value, In, m.msgType, now, None, None))
      else None
  }

  function Stored(m: InMessage, now: string): seq<Record> {
    match Normalize(m, now)
    case None => []
    case Some(r) => [r]
  }

  /** Reference definition: the records a list of messages yields, in list order. */
  function Normalized(msgs: seq<InMessage>, now: string): seq<Record>
    decreases |msgs|
  {
    if msgs == [] then [] else Stored(msgs[0], now) + Normalized(msgs[1..], now)
  }

  /** Index of the first message without a type, or `|msgs|` when all are typed. */
  function FirstUntyped(msgs: seq<InMessage>): (k: nat)
    ensures k <= |msgs|
    ensures forall i :: 0 <= i < k ==> msgs[i].msgType.Some?
    ensures k < |msgs| ==> msgs[k].msgType.None?
    decreases |msgs|
  {
    if msgs == [] then 0
    else if msgs[0].msgType.None? then 0
    else 1 + FirstUntyped(msgs[1..])
  }

  /** The handler's loop over a change's `messages` list: each message is appended
      to the store unless dropped; a message without a type aborts the request. */
  function ProcessMessages(store: seq<Record>, msgs: seq<InMessage>, now: string): (p: Processed)
    ensures store <= p.store
    ensures Evolves(store, p.store)
    ensures p.Aborted? <==> exists i :: 0 <= i < |msgs| && msgs[i].msgType.None?
    decreases |msgs|
  {
    if msgs == [] then Done(store)
    else if msgs[0].msgType.None? then Aborted(store)
    else
      var p := ProcessMessages(store + Stored(msgs[0], now), msgs[1..], now);
      assert forall i :: 1 <= i < |msgs| ==> msgs[i] == msgs[1..][i - 1];
      p
  }

  /** Processing appends exactly the records of the messages before the first
      untyped one, in order; it completes iff every message has a type. */
  lemma {:induction false} ProcessMessagesAppends(store: seq<Record>, msgs: seq<InMessage>, now: string)
    ensures var k := FirstUntyped(msgs);
      ProcessMessages(store, msgs, now)
        == if k < |msgs| then Aborted(store + Normalized(msgs[..k], now))
           else Done(store + Normalized(msgs, now))
    decreases |msgs|
  {
    if msgs == [] {
      assert store + [] == store;
    } else if msgs[0].msgType.None? {
      assert msgs[..0] == [];
      assert store + [] == store;
    } else {
      var rest := msgs[1..];
      var s1 := store + Stored(msgs[0], now);
      assert ProcessMessages(store, msgs, now) == ProcessMessages(s1, rest, now);
      ProcessMessagesAppends(s1, rest, now);
      var k := FirstUntyped(msgs);
      assert k == 1 + FirstUntyped(rest);
      if k < |msgs| {
        assert Normalized(msgs[..k], now) == Stored(msgs[0], now) + Normalized(rest[..k - 1], now) by {
          assert msgs[..k][1..] == rest[..k - 1];
        }
        AppendAssoc(store, Stored(msgs[0], now), Normalized(rest[..k - 1], now));
      } else {
        AppendAssoc(store, Stored(msgs[0], now), Normalized(rest, now));
      }
    }
  }

  /** A record is among the normalised records iff some message of the list
      normalises to it: nothing is invented, nothing kept is lost. */
  lemma {:induction false} NormalizedMembers(msgs: seq<InMessage>, now: string, r: Record)
    ensures r in Normalized(msgs, now) <==> exists i :: 0 <= i < |msgs| && Normalize(msgs[i], now) == Some(r)
    decreases |msgs|
  {
    if msgs != [] {
      NormalizedMembers(msgs[1..], now, r);
      if r in Normalized(msgs[1..], now) {
        var i :| 0 <= i < |msgs[1..]| && Normalize(msgs[1..][i], now) == Some(r);
        assert Normalize(msgs[i + 1], now) == Some(r);
      }
      if exists i :: 0 <= i < |msgs| && Normalize(msgs[i], now) == Some(r) {
        var i :| 0 <= i < |msgs| && Normalize(msgs[i], now) == Some(r);
        if i > 0 {
          assert Normalize(msgs[1..][i - 1], now) == Some(r);
        }
      }
    }
  }

  /** Normalisation distributes over concatenation: the records of an earlier
      message precede those of a later one, with nothing merged or removed. */
  lemma {:induction false} NormalizedConcat(a: seq<InMessage>, b: seq<InMessage>, now: string)
    ensures Normalized(a + b, now) == Normalized(a, now) + Normalized(b, now)
    decreases |a|
  {
    if a == [] {
      assert a + b == b;
    } else {
      NormalizedConcat(a[1..], b, now);
      assert Normalized(a, now) == Stored(a[0], now) + Normalized(a[1..], now);
      assert Normalized(a + b, now) == Stored(a[0], now) + Normalized(a[1..] + b, now) by {
        assert (a + b)[0] == a[0] && (a + b)[1..] == a[1..] + b;
      }
      AppendAssoc(Stored(a[0], now), Normalized(a[1..], now), Normalized(b, now));
    }
  }

  /** Normalisation only ever produces inbound records. */
  lemma {:induction false} NormalizedInbound(msgs: seq<InMessage>, now: string)
    ensures AllInbound(Normalized(msgs, now))
    decreases |msgs|
  {
    if msgs != [] {
      NormalizedInbound(msgs[1..], now);
    }
  }

  /** The records of a leading part of a message list lead the records of the whole list. */
  lemma NormalizedPrefix(msgs: seq<InMessage>, k: nat, now: string)
    requires k <= |msgs|
    ensures Normalized(msgs[..k], now) <= Normalized(msgs, now)
  {
    assert msgs == msgs[..k] + msgs[k..];
    NormalizedConcat(msgs[..k], msgs[k..], now);
  }
}

=== FILE: listing.dfy ===
/** The `/get_messages` endpoint: the whole store sorted by creation timestamp
    with Python's stable `sorted`, plus the record count. */
module Listing {
  import opened Strings
  import opened Store

  datatype MessageListing = MessageListing(messages: seq<Record>, count: nat)

  /** Ascending by timestamp, compared as Python compares strings. */
  predicate Sorted(s: seq<Record>) {
    forall i :: 0 < i < |s| ==> LessEq(s[i - 1].timestamp, s[i].timestamp)
  }

  /** The records created at timestamp `t`, in sequence order. */
  function WithTimestamp(s: seq<Record>, t: string): seq<Record>
    decreases |s|
  {
    if s == [] then []
    else (if s[0].timestamp == t then [s[0]] else []) + WithTimestamp(s[1..], t)
  }

  /** Places `r` before the first record whose timestamp is not below its own. */
  function Insert(r: Record, s: seq<Record>): (t: seq<Record>)
    requires Sorted(s)
    ensures Sorted(t)
    ensures multiset(t) == multiset(s) + multiset{r}
    ensures t[0] == r || (|s| > 0 && t[0] == s[0])
    decreases |s|
  {
    if s == [] then [r]
    else if LessEq(r.timestamp, s[0].timestamp) then [r] + s
    else
      LessEqTotal(r.timestamp, s[0].timestamp);
      var rest := Insert(r, s[1..]);
      assert s == [s[0]] + s[1..];
      [s[0]] + rest
  }

  /** Insertion sort, stable because each record goes before its equals. */
  function Sort(s: seq<Record>): (t: seq<Record>)
    ensures Sorted(t)
    ensures multiset(t) == multiset(s)
    decreases |s|
  {
    if s == [] then []
    else
      assert s == [s[0]] + s[1..];
      Insert(s[0], Sort(s[1..]))
  }

  lemma {:induction false} InsertKeepsOrderOfEquals(r: Record, s: seq<Record>, t: string)
    requires Sorted(s)
    ensures WithTimestamp(Insert(r, s), t) == (if r.timestamp == t then [r] else []) + WithTimestamp(s, t)
    decreases |s|
  {
    if s == [] {
    } else if LessEq(r.timestamp, s[0].timestamp) {
      assert Insert(r, s)[1..] == s;
    } else {
      InsertPastEarlier(r, s, t);
    }
  }

  /** The case where `r` is inserted after the first record, whose timestamp is
      then strictly below its own and so differs from it. */
  lemma {:induction false} InsertPastEarlier(r: Record, s: seq<Record>, t: string)
    requires Sorted(s) && s != [] && !LessEq(r.timestamp, s[0].timestamp)
    ensures WithTimestamp(Insert(r, s), t) == (if r.timestamp == t then [r] else []) + WithTimestamp(s, t)
    decreases |s|, 0
  {
    LessEqReflexive(r.timestamp);
    var rest := Insert(r, s[1..]);
    var mine := if r.timestamp == t then [r] else [];
    var head := if s[0].timestamp == t then [s[0]] else [];
    InsertKeepsOrderOfEquals(r, s[1..], t);
    WithTimestampCons(s[0], rest, t);
    WithTimestampCons(s[0], s[1..], t);
    assert s == [s[0]] + s[1..];
    assert head + mine == mine + head;
    AppendAssoc(head, mine, WithTimestamp(s[1..], t));
    AppendAssoc(mine, head, WithTimestamp(s[1..], t));
  }

  lemma WithTimestampCons(x: Record, s: seq<Record>, t: string)
    ensures WithTimestamp([x] + s, t) == (if x.timestamp == t then [x] else []) + WithTimestamp(s, t)
  {
    assert ([x] + s)[1..] == s;
  }

  /** Stability: records with equal timestamps keep their store order. */
  lemma {:induction false} SortIsStable(s: seq<Record>, t: string)
    ensures WithTimestamp(Sort(s), t) == WithTimestamp(s, t)
    decreases |s|
  {
    if s != [] {
      SortIsStable(s[1..], t);
      InsertKeepsOrderOfEquals(s[0], Sort(s[1..]), t);
    }
  }

  /** Adjacent order gives order between every pair. */
  lemma {:induction false} SortedPairwise(s: seq<Record>, i: int, j: int)
    requires Sorted(s)
    requires 0 <= i <= j < |s|
    ensures LessEq(s[i].timestamp, s[j].timestamp)
    decreases j - i
  {
    if i == j {
      LessEqReflexive(s[i].timestamp);
    } else {
      SortedPairwise(s, i, j - 1);
      LessEqTransitive(s[i].timestamp, s[j - 1].timestamp, s[j].timestamp);
    }
  }

  /** Sorted order, the multiset and the order among equal timestamps fix a
      listing completely: any two sequences agreeing on them are equal. */
  lemma {:induction false} ListingUnique(a: seq<Record>, b: seq<Record>)
    requires Sorted(a) && Sorted(b)
    requires multiset(a) == multiset(b)
    requires forall t :: WithTimestamp(a, t) == WithTimestamp(b, t)
    ensures a == b
    decreases |a|
  {
    if a == [] {
      assert |multiset(b)| == 0;
    } else {
      assert |b| > 0 by {
        assert a[0] in multiset(a);
      }
      SameLeastTimestamp(a, b);
      var t := a[0].timestamp;
      assert WithTimestamp(a, t) == WithTimestamp(b, t);
      SameHead(a, b);
      SortedRest(a);
      SortedRest(b);
      SameMultisetRest(a, b);
      forall t' ensures WithTimestamp(a[1..], t') == WithTimestamp(b[1..], t') {
        assert WithTimestamp(a, t') == WithTimestamp(b, t');
        SameGroupsRest(a, b, t');
      }
      ListingUnique(a[1..], b[1..]);
      assert a == [a[0]] + a[1..] && b == [b[0]] + b[1..];
    }
  }

  /** Two sorted arrangements of one multiset start with the same, least, timestamp. */
  lemma SameLeastTimestamp(a: seq<Record>, b: seq<Record>)
    requires Sorted(a) && Sorted(b) && a != [] && b != []
    requires multiset(a) == multiset(b)
    ensures a[0].timestamp == b[0].timestamp
  {
    assert a[0] in multiset(b) && b[0] in multiset(a);
    var i :| 0 <= i < |b| && b[i] == a[0];
    var j :| 0 <= j < |a| && a[j] == b[0];
    SortedPairwise(b, 0, i);
    SortedPairwise(a, 0, j);
    LessEqAntisymmetric(a[0].timestamp, b[0].timestamp);
  }

  /** Heads with one timestamp and the same records at that timestamp are one record. */
  lemma SameHead(a: seq<Record>, b: seq<Record>)
    requires a != [] && b != [] && a[0].timestamp == b[0].timestamp
    requires WithTimestamp(a, a[0].timestamp) == WithTimestamp(b, a[0].timestamp)
    ensures a[0] == b[0]
  {
    var t := a[0].timestamp;
    assert a == [a[0]] + a[1..] && b == [b[0]] + b[1..];
    WithTimestampCons(a[0], a[1..], t);
    WithTimestampCons(b[0], b[1..], t);
    assert WithTimestamp(a, t)[0] == a[0];
    assert WithTimestamp(b, t)[0] == b[0];
  }

  lemma SortedRest(a: seq<Record>)
    requires Sorted(a) && a != []
    ensures Sorted(a[1..])
  {
  }

  lemma SameMultisetRest(a: seq<Record>, b: seq<Record>)
    requires a != [] && b != [] && a[0] == b[0] && multiset(a) == multiset(b)
    ensures multiset(a[1..]) == multiset(b[1..])
  {
    assert a == [a[0]] + a[1..] && b == [b[0]] + b[1..];
    assert multiset(a) == multiset{a[0]} + multiset(a[1..]);
    assert multiset(b) == multiset{b[0]} + multiset(b[1..]);
    assert multiset(a[1..]) == multiset(a) - multiset{a[0]};
    assert multiset(b[1..]) == multiset(b) - multiset{b[0]};
  }

  lemma SameGroupsRest(a: seq<Record>, b: seq<Record>, t: string)
    requires a != [] && b != [] && a[0] == b[0]
    requires WithTimestamp(a, t) == WithTimestamp(b, t)
    ensures WithTimestamp(a[1..], t) == WithTimestamp(b[1..], t)
  {
    assert a == [a[0]] + a[1..] && b == [b[0]] + b[1..];
    WithTimestampCons(a[0], a[1..], t);
    WithTimestampCons(b[0], b[1..], t);
    var head := if a[0].timestamp == t then [a[0]] else [];
    assert WithTimestamp(a[1..], t) == WithTimestamp(a, t)[|head|..];
    assert WithTimestamp(b[1..], t) == WithTimestamp(b, t)[|head|..];
  }

  /** The listing's contract leaves exactly one possible result. */
  lemma ListMessagesDetermined(store: seq<Record>, other: seq<Record>)
    requires Sorted(other) && multiset(other) == multiset(store)
    requires forall t :: WithTimestamp(other, t) == WithTimestamp(store, t)
    ensures other == ListMessages(store).messages
  {
    ListingUnique(other, ListMessages(store).messages);
  }

  /** `get_messages_route`: every record once, ascending by timestamp, equal
      timestamps in store order, and the number of records. */
  function ListMessages(store: seq<Record>): (l: MessageListing)
    ensures l.count == |store|
    ensures multiset(l.messages) == multiset(store)
    ensures Sorted(l.messages)
    ensures forall t :: WithTimestamp(l.messages, t) == WithTimestamp(store, t)
  {
    var sorted := Sort(store);
    assert forall t :: WithTimestamp(sorted, t) == WithTimestamp(store, t) by {
      forall t ensures WithTimestamp(sorted, t) == WithTimestamp(store, t) {
        SortIsStable(store, t);
      }
    }
    MessageListing(sorted, |store|)
  }
}

=== FILE: send.dfy ===
/** The `/send_message` endpoint: input validation, the request handed to the
    Graph API, and the bookkeeping of a successful send. The API call itself is
    not modelled; its reply is a parameter. */
module Send {
  import opened Wrappers
  import opened Strings
  import opened Store
  import opened Status

  /** The POST to the provider. Its JSON body is `messaging_product` "whatsapp",
      `type` "text", `to` and `text.body`; the two constant keys are not repeated here. */
  datatype OutboundRequest = OutboundRequest(url: string, authorization: string, to: string, body: string)

  /** What the provider call produced: `Failed` for a `RequestException` (network
      error, or a non-2xx status raised by `raise_for_status`), `Replied` with the
      reply's `messages` list (`None` when absent) and each element's `id`. */
  datatype Reply = Failed(detail: string) | Replied(messages: Option<seq<Option<string>>>)

  datatype SendStatus =
    | Sent(messageId: Option<string>)
    | Invalid
    | UpstreamError(message: string)
    | Unexpected

  /** The store afterwards, the provider request if one was issued, and the result. */
  datatype SendOutcome = SendOutcome(store: seq<Record>, request: Option<OutboundRequest>, status: SendStatus)

  function Endpoint(cfg: Config): string {
    "https://graph.facebook.com/" + cfg.apiVersion + "/" + Show(cfg.phoneNumberId) + "/messages"
  }

  function BuildRequest(cfg: Config, to: string, text: string): OutboundRequest {
    OutboundRequest(Endpoint(cfg), "Bearer " + Show(cfg.accessToken), to, text)
  }

  /** The HTTP status the route answers with. */
  function StatusCode(s: SendStatus): (code: int)
    ensures code == 200 <==> s.Sent?
    ensures code == 400 <==> s.Invalid?
    ensures code == 500 <==> s.UpstreamError? || s.Unexpected?
  {
    match s
    case Sent(_) => 200
    case Invalid => 400
    case UpstreamError(_) => 500
    case Unexpected => 500
  }

  /** `send_message_route`. An empty `messages` list in the reply raises
      `IndexError`, which the generic handler turns into an unexpected error. */
  function SendMessage(store: seq<Record>, cfg: Config, recipient: Option<string>, text: Option<string>,
                       reply: Reply, now: string): (o: SendOutcome)
    ensures o.status.Invalid? <==> !Truthy(recipient) || !Truthy(text)
    ensures o.request.Some? <==> !o.status.Invalid?
    ensures o.request.Some? ==> o.request.value == BuildRequest(cfg, recipient.value, text.value)
    ensures !o.status.Sent? ==> o.store == store
    ensures o.status.Sent? <==>
      Truthy(recipient) && Truthy(text) && reply.Replied? && (reply.messages.None? || |reply.messages.value| > 0)
    ensures o.status.Sent? ==>
      o.status.messageId == (if reply.messages.None? then None else reply.messages.value[0])
    ensures o.status.Sent? ==>
      && |o.store| == |store| + 1
      && o.store[..|store|] == store
      && o.store[|store|] == Record(o.status.messageId, cfg.phoneNumberId, recipient, text.value, Out, None,
                                    now, Some("sent"), None)
    ensures Truthy(recipient) && Truthy(text) && reply == Replied(Some([])) ==> o.status == Unexpected
    ensures reply.Failed? && !o.status.Invalid? ==>
      o.status == UpstreamError("Error sending WhatsApp message: " + reply.detail)
  {
    if !Truthy(recipient) || !Truthy(text) then SendOutcome(store, None, Invalid)
    else
      var request := BuildRequest(cfg, recipient.value, text.value);
      match reply
      case Failed(detail) =>
        SendOutcome(store, Some(request), UpstreamError("Error sending WhatsApp message: " + detail))
      case Replied(messages) =>
        if messages.Some? && |messages.value| == 0 then SendOutcome(store, Some(request), Unexpected)
        else
          var id := if messages.None? then None else messages.value[0];
          var sent := Record(id, cfg.phoneNumberId, recipient, text.value, Out, None, now, Some("sent"), None);
          SendOutcome(store + [sent], Some(request), Sent(id))
  }

  /** A send is an evolution of the store: it never touches an existing record. */
  lemma SendEvolves(store: seq<Record>, cfg: Config, recipient: Option<string>, text: Option<string>,
                    reply: Reply, now: string)
    ensures var o := SendMessage(store, cfg, recipient, text, reply, now);
      Evolves(store, o.store) && store <= o.store
  {
  }

  /** A status event for the id a send returned lands on the record that send
      appended, provided no earlier outbound record carries the same id. */
  lemma {:induction false} StatusReachesSentRecord(store: seq<Record>, cfg: Config, recipient: Option<string>,
                                  text: Option<string>, reply: Reply, now: string,
                                  ev: StatusEvent, epochToIso: string -> Option<string>)
    requires SendMessage(store, cfg, recipient, text, reply, now).status.Sent?
    requires ev.id == SendMessage(store, cfg, recipient, text, reply, now).status.messageId
    requires forall i :: 0 <= i < |store| ==> !Matches(store[i], ev.id)
    ensures var sent := SendMessage(store, cfg, recipient, text, reply, now).store;
      FirstMatch(sent, ev.id) == Some(|store|)
      && ApplyStatus(sent, ev, epochToIso).store[|store|].status == ev.status
  {
    var sent := SendMessage(store, cfg, recipient, text, reply, now).store;
    FirstMatchAfter(store, sent[|store|], ev.id);
    assert sent == store + [sent[|store|]];
  }

  /** Scanning past a prefix without matches reaches the appended record. */
  lemma {:induction false} FirstMatchAfter(store: seq<Record>, r: Record, id: Option<string>)
    requires forall i :: 0 <= i < |store| ==> !Matches(store[i], id)
    requires Matches(r, id)
    ensures FirstMatch(store + [r], id) == Some(|store|)
    decreases |store|
  {
    if store != [] {
      assert (store + [r])[1..] == store[1..] + [r];
      FirstMatchAfter(store[1..], r, id);
    }
  }
}

=== FILE: status.dfy ===
/** Correlation of delivery-status events with previously sent messages: the
    first outbound record with the event's id takes the event's status. */
module Status {
  import opened Wrappers
  import opened Strings
  import opened Store

  /** One element of a change's `statuses` list: `id`, `status` and the provider's
      unix-epoch `timestamp` string. `recipient_id` is read only for logging. */
  datatype StatusEvent = StatusEvent(id: Option<string>, status: Option<string>, timestamp: Option<string>)

  /** The record is outbound and carries exactly this id; two absent ids are equal,
      as `None == None` is in Python. */
  predicate Matches(r: Record, id: Option<string>) {
    r.id == id && r.direction == Out
  }

  /** The linear scan: index of the first matching record in store order. */
  function FirstMatch(store: seq<Record>, id: Option<string>): (k: Option<nat>)
    ensures k.Some? ==> k.value < |store| && Matches(store[k.value], id)
    ensures forall j :: 0 <= j < |store| && (k.None? || j < k.value) ==> !Matches(store[j], id)
    decreases |store|
  {
    if store == [] then None
    else if Matches(store[0], id) then Some(0)
    else
      match FirstMatch(store[1..], id)
      case None => None
      case Some(k) => Some(k + 1)
  }

  /** Applies one status event. `epochToIso` stands for
      `datetime.fromtimestamp(int(ts)).isoformat()`; `None` means `int()` or
      `fromtimestamp` raised (a non-numeric or out-of-range epoch), which happens
      after the status was already overwritten and aborts the request. */
  function ApplyStatus(store: seq<Record>, ev: StatusEvent, epochToIso: string -> Option<string>): (p: Processed)
    ensures |p.store| == |store|
    ensures Evolves(store, p.store)
    ensures FirstMatch(store, ev.id).None? ==> p == Done(store)
    ensures FirstMatch(store, ev.id).Some? ==>
      var k := FirstMatch(store, ev.id).value;
      && (forall j :: 0 <= j < |store| && j != k ==> p.store[j] == store[j])
      && SameOrigin(store[k], p.store[k])
      && p.store[k].status == ev.status
      && (p.Aborted? <==> Truthy(ev.timestamp) && epochToIso(ev.timestamp.value).None?)
      && (Truthy(ev.timestamp) && p.Done? ==> p.store[k].statusUpdated == epochToIso(ev.timestamp.value))
      && (!Truthy(ev.timestamp) || p.Aborted? ==> p.store[k].statusUpdated == store[k].statusUpdated)
  {
    match FirstMatch(store, ev.id)
    case None => Done(store)
    case Some(k) =>
      var touched := store[k].(status := ev.status);
      if Truthy(ev.timestamp) then
        match epochToIso(ev.timestamp.value)
        case None => Aborted(store[k := touched])
        case Some(iso) => Done(store[k := touched.(statusUpdated := Some(iso))])
      else Done(store[k := touched])
  }

  /** The handler's loop over a change's `statuses` list. */
  function ProcessStatuses(store: seq<Record>, evs: seq<StatusEvent>, epochToIso: string -> Option<string>): (p: Processed)
    ensures |p.store| == |store|
    ensures Evolves(store, p.store)
    decreases |evs|
  {
    if evs == [] then Done(store)
    else
      match ApplyStatus(store, evs[0], epochToIso)
      case Aborted(s) => Aborted(s)
      case Done(s) =>
        var p := ProcessStatuses(s, evs[1..], epochToIso);
        EvolvesTransitive(store, s, p.store);
        p
  }

  /** Changing status fields never changes which record a later event matches. */
  lemma {:induction false} FirstMatchStable(a: seq<Record>, b: seq<Record>, id: Option<string>)
    requires |a| == |b|
    requires forall i :: 0 <= i < |a| ==> SameOrigin(a[i], b[i])
    ensures FirstMatch(a, id) == FirstMatch(b, id)
    decreases |a|
  {
    if a != [] {
      assert SameOrigin(a[0], b[0]);
      FirstMatchStable(a[1..], b[1..], id);
    }
  }

  /** Last event wins: after two completed events for the same id, the matched
      record shows the second event's status, whatever the first one said. */
  lemma LastStatusWins(store: seq<Record>, e1: StatusEvent, e2: StatusEvent, epochToIso: string -> Option<string>)
    requires e1.id == e2.id
    requires FirstMatch(store, e1.id).Some?
    requires ApplyStatus(store, e1, epochToIso).Done?
    ensures var s1 := ApplyStatus(store, e1, epochToIso).store;
      ApplyStatus(s1, e2, epochToIso).store[FirstMatch(store, e1.id).value].status == e2.status
  {
    var s1 := ApplyStatus(store, e1, epochToIso).store;
    FirstMatchStable(store, s1, e1.id);
  }

  // ---- What a list of status events does, event by event ----

  /** The event is matched to a record and carries a timestamp the conversion rejects. */
  predicate Rejects(store: seq<Record>, ev: StatusEvent, epochToIso: string -> Option<string>) {
    FirstMatch(store, ev.id).Some? && Truthy(ev.timestamp) && epochToIso(ev.timestamp.value).None?
  }

  /** Index of the last event that matches record `k` (and, when `stamped`, carries
      a timestamp), or `None` when no event does. */
  function LastHit(store: seq<Record>, evs: seq<StatusEvent>, k: nat, stamped: bool): (j: Option<nat>)
    ensures j.Some? ==>
      && j.value < |evs|
      && FirstMatch(store, evs[j.value].id) == Some(k)
      && (stamped ==> Truthy(evs[j.value].timestamp))
    ensures forall i :: 0 <= i < |evs| && (j.None? || j.value < i) ==>
      !(FirstMatch(store, evs[i].id) == Some(k) && (stamped ==> Truthy(evs[i].timestamp)))
    decreases |evs|
  {
    if evs == [] then None
    else
      match LastHit(store, evs[1..], k, stamped)
      case Some(j) => Some(j + 1)
      case None =>
        if FirstMatch(store, evs[0].id) == Some(k) && (stamped ==> Truthy(evs[0].timestamp)) then Some(0)
        else None
  }

  /** The status record `k` shows after the events: that of the last event matching it. */
  function StatusAfter(store: seq<Record>, evs: seq<StatusEvent>, k: nat): Option<string>
    requires k < |store|
  {
    match LastHit(store, evs, k, false)
    case None => store[k].status
    case Some(j) => evs[j].status
  }

  /** The update time record `k` shows: the conversion of the last timestamp among its events. */
  function StampAfter(store: seq<Record>, evs: seq<StatusEvent>, epochToIso: string -> Option<string>, k: nat): Option<string>
    requires k < |store|
  {
    match LastHit(store, evs, k, true)
    case None => store[k].statusUpdated
    case Some(j) => epochToIso(evs[j].timestamp.value)
  }

  /** Records that differ at most in status fields match the same events. */
  lemma {:induction false} LastHitStable(a: seq<Record>, b: seq<Record>, evs: seq<StatusEvent>, k: nat, stamped: bool)
    requires |a| == |b|
    requires forall i :: 0 <= i < |a| ==> SameOrigin(a[i], b[i])
    ensures LastHit(a, evs, k, stamped) == LastHit(b, evs, k, stamped)
    decreases |evs|
  {
    if evs != [] {
      FirstMatchStable(a, b, evs[0].id);
      LastHitStable(a, b, evs[1..], k, stamped);
    }
  }

  /** The status loop aborts iff some event is matched and has a timestamp
      that does not convert. */
  lemma {:induction false} StatusesAbort(store: seq<Record>, evs: seq<StatusEvent>, epochToIso: string -> Option<string>)
    ensures ProcessStatuses(store, evs, epochToIso).Aborted? <==>
      exists j :: 0 <= j < |evs| && Rejects(store, evs[j], epochToIso)
    decreases |evs|
  {
    if evs != [] {
      var first := ApplyStatus(store, evs[0], epochToIso);
      assert first.Aborted? <==> Rejects(store, evs[0], epochToIso);
      if first.Done? {
        var s := first.store;
        var rest := evs[1..];
        assert ProcessStatuses(store, evs, epochToIso) == ProcessStatuses(s, rest, epochToIso);
        StatusesAbort(s, rest, epochToIso);
        forall j | 0 <= j < |rest|
          ensures Rejects(s, rest[j], epochToIso) <==> Rejects(store, evs[j + 1], epochToIso)
        {
          FirstMatchStable(store, s, rest[j].id);
        }
        if exists j :: 0 <= j < |evs| && Rejects(store, evs[j], epochToIso) {
          var j :| 0 <= j < |evs| && Rejects(store, evs[j], epochToIso);
          assert j > 0 && Rejects(s, rest[j - 1], epochToIso);
        }
        if exists j :: 0 <= j < |rest| && Rejects(s, rest[j], epochToIso) {
          var j :| 0 <= j < |rest| && Rejects(s, rest[j], epochToIso);
          assert Rejects(store, evs[j + 1], epochToIso);
        }
      }
    }
  }

  /** When the status loop completes, every record shows the status of the last
      event matching it and the converted time of the last such event with a
      timestamp, and keeps its old values where no event matched it. */
  lemma {:induction false} StatusesValues(store: seq<Record>, evs: seq<StatusEvent>, epochToIso: string -> Option<string>)
    ensures var p := ProcessStatuses(store, evs, epochToIso);
      p.Done? ==> forall k :: 0 <= k < |store| ==>
        && p.store[k].status == StatusAfter(store, evs, k)
        && p.store[k].statusUpdated == StampAfter(store, evs, epochToIso, k)
    decreases |evs|
  {
    if evs != [] && ApplyStatus(store, evs[0], epochToIso).Done? {
      var s := ApplyStatus(store, evs[0], epochToIso).store;
      var q := ProcessStatuses(s, evs[1..], epochToIso);
      assert ProcessStatuses(store, evs, epochToIso) == q;
      StatusesValues(s, evs[1..], epochToIso);
      if q.Done? {
        forall k | 0 <= k < |store|
          ensures q.store[k].status == StatusAfter(store, evs, k)
          ensures q.store[k].statusUpdated == StampAfter(store, evs, epochToIso, k)
        {
          StatusStep(store, evs, epochToIso, k, q.store[k]);
        }
      }
    }
  }

  /** One event later: what a record shows after the remaining events, seen from
      the store after the first event, is what it shows after all of them. */
  lemma StatusStep(store: seq<Record>, evs: seq<StatusEvent>, epochToIso: string -> Option<string>, k: nat, after: Record)
    requires evs != [] && k < |store|
    requires ApplyStatus(store, evs[0], epochToIso).Done?
    requires var s := ApplyStatus(store, evs[0], epochToIso).store;
      && after.status == StatusAfter(s, evs[1..], k)
      && after.statusUpdated == StampAfter(s, evs[1..], epochToIso, k)
    ensures after.status == StatusAfter(store, evs, k)
    ensures after.statusUpdated == StampAfter(store, evs, epochToIso, k)
  {
    var s := ApplyStatus(store, evs[0], epochToIso).store;
    assert forall i :: 0 <= i < |store| ==> SameOrigin(store[i], s[i]);
    HitStep(store, s, evs, epochToIso, k, false);
    HitStep(store, s, evs, epochToIso, k, true);
  }

  /** The last hit over all events, in terms of the last hit over the remaining
      ones after the first event was applied. */
  lemma HitStep(store: seq<Record>, s: seq<Record>, evs: seq<StatusEvent>, epochToIso: string -> Option<string>, k: nat, stamped: bool)
    requires evs != [] && k < |store|
    requires ApplyStatus(store, evs[0], epochToIso) == Done(s)
    requires forall i :: 0 <= i < |store| ==> SameOrigin(store[i], s[i])
    ensures match LastHit(s, evs[1..], k, stamped)
      case Some(j) => LastHit(store, evs, k, stamped) == Some(j + 1)
      case None =>
        if FirstMatch(store, evs[0].id) == Some(k) && (stamped ==> Truthy(evs[0].timestamp)) then
          LastHit(store, evs, k, stamped) == Some(0)
        else LastHit(store, evs, k, stamped).None?
    ensures LastHit(s, evs[1..], k, stamped).None? ==>
      && (FirstMatch(store, evs[0].id) == Some(k) ==> s[k].status == evs[0].status)
      && (FirstMatch(store, evs[0].id) == Some(k) && Truthy(evs[0].timestamp) ==>
            s[k].statusUpdated == epochToIso(evs[0].timestamp.value))
      && (FirstMatch(store, evs[0].id) != Some(k) ==> s[k] == store[k])
      && (!Truthy(evs[0].timestamp) ==> s[k].statusUpdated == store[k].statusUpdated)
  {
    LastHitStable(s, store, evs[1..], k, stamped);
  }

  // ---- Where an aborted loop stops, and how it composes ----

  /** An aborted loop ends exactly in the state its first failing event left:
      every earlier event completed, and the store keeps their updates together
      with the failing event's own status assignment. */
  lemma {:induction false} StatusesAbortState(store: seq<Record>, evs: seq<StatusEvent>, epochToIso: string -> Option<string>)
    ensures var p := ProcessStatuses(store, evs, epochToIso);
      p.Aborted? ==>
        exists j :: 0 <= j < |evs| && ProcessStatuses(store, evs[..j], epochToIso).Done? &&
          p == ApplyStatus(ProcessStatuses(store, evs[..j], epochToIso).store, evs[j], epochToIso)
    decreases |evs|
  {
    if evs != [] {
      assert evs[..0] == [];
      match ApplyStatus(store, evs[0], epochToIso)
      case Aborted(s) =>
        assert ProcessStatuses(store, evs[..0], epochToIso) == Done(store);
      case Done(s) =>
        var rest := evs[1..];
        StatusesAbortState(s, rest, epochToIso);
        if ProcessStatuses(s, rest, epochToIso).Aborted? {
          var j :| 0 <= j < |rest|
            && ProcessStatuses(s, rest[..j], epochToIso).Done?
            && ProcessStatuses(s, rest, epochToIso) == ApplyStatus(ProcessStatuses(s, rest[..j], epochToIso).store, rest[j], epochToIso);
          assert evs[..j + 1][1..] == rest[..j];
          assert ProcessStatuses(store, evs[..j + 1], epochToIso) == ProcessStatuses(s, rest[..j], epochToIso);
          assert evs[j + 1] == rest[j];
        }
    }
  }

  /** Running two event lists one after the other is running their concatenation. */
  lemma {:induction false} StatusesConcat(store: seq<Record>, a: seq<StatusEvent>, b: seq<StatusEvent>, epochToIso: string -> Option<string>)
    ensures var p := ProcessStatuses(store, a, epochToIso);
      ProcessStatuses(store, a + b, epochToIso) == if p.Done? then ProcessStatuses(p.store, b, epochToIso) else p
    decreases |a|
  {
    if a == [] {
      assert a + b == b;
    } else {
      assert (a + b)[0] == a[0];
      assert (a + b)[1..] == a[1..] + b;
      match ApplyStatus(store, a[0], epochToIso)
      case Aborted(s) =>
      case Done(s) =>
        StatusesConcat(s, a[1..], b, epochToIso);
    }
  }

  /** Inbound records after the old ones never match, so the first match is found
      among the old records. */
  lemma {:induction false} FirstMatchBesideInbound(a: seq<Record>, t: seq<Record>, id: Option<string>)
    requires AllInbound(t)
    ensures FirstMatch(a + t, id) == FirstMatch(a, id)
    decreases |a|
  {
    if a == [] {
      assert a + t == t;
      FirstMatchNone(t, id);
    } else {
      assert (a + t)[0] == a[0];
      assert (a + t)[1..] == a[1..] + t;
      FirstMatchBesideInbound(a[1..], t, id);
    }
  }

  lemma {:induction false} FirstMatchNone(t: seq<Record>, id: Option<string>)
    requires AllInbound(t)
    ensures FirstMatch(t, id).None?
    decreases |t|
  {
    if t != [] {
      assert t[0].direction == In;
      assert AllInbound(t[1..]) by {
        forall i | 0 <= i < |t[1..]|
          ensures t[1..][i].direction == In
        {
          assert t[1..][i] == t[i + 1];
        }
      }
      FirstMatchNone(t[1..], id);
    }
  }

  /** A status event applied to a store with inbound records appended acts on the
      old records only: same outcome, the appended records untouched. */
  lemma ApplyStatusBesideInbound(a: seq<Record>, t: seq<Record>, ev: StatusEvent, epochToIso: string -> Option<string>)
    requires AllInbound(t)
    ensures ApplyStatus(a + t, ev, epochToIso) == ApplyStatus(a, ev, epochToIso).Extend(t)
  {
    FirstMatchBesideInbound(a, t, ev.id);
    match FirstMatch(a, ev.id)
    case None =>
    case Some(k) =>
      var touched := a[k].(status := ev.status);
      UpdateBeforeTail(a, t, k, touched);
      if Truthy(ev.timestamp) {
        UpdateBeforeTail(a, t, k, touched.(statusUpdated := epochToIso(ev.timestamp.value)));
      }
  }

  /** The status loop over a store with inbound records appended: the same outcome
      as over the old records, with the appended records untouched. */
  lemma {:induction false} StatusesBesideInbound(a: seq<Record>, t: seq<Record>, evs: seq<StatusEvent>, epochToIso: string -> Option<string>)
    requires AllInbound(t)
    ensures ProcessStatuses(a + t, evs, epochToIso) == ProcessStatuses(a, evs, epochToIso).Extend(t)
    decreases |evs|
  {
    if evs != [] {
      ApplyStatusBesideInbound(a, t, evs[0], epochToIso);
      match ApplyStatus(a, evs[0], epochToIso)
      case Aborted(s) =>
      case Done(s) =>
        StatusesBesideInbound(s, t, evs[1..], epochToIso);
    }
  }
}

=== FILE: store.dfy ===
/** The in-memory message store shared by every handler, the shape of one stored
    message, the service configuration and the HTTP answers the handlers give. */
module Store {
  import opened Wrappers

  datatype Direction = In | Out

  /** One stored message. Inbound records carry a type and no recipient or status;
      outbound records carry a recipient and a status, which starts as "sent" and
      becomes whatever a later status event reports (`None` when that event had none). */
  datatype Record = Record(
    id: Option<string>,
    sender: Option<string>,
    recipient: Option<string>,
    text: string,
    direction: Direction,
    msgType: Option<string>,
    timestamp: string,
    status: Option<string>,
    statusUpdated: Option<string>)

  /** `after` differs from `before` at most in the two status fields. */
  predicate SameOrigin(before: Record, after: Record) {
    before.(status := after.status, statusUpdated := after.statusUpdated) == after
  }

  /** The store only grows; an existing record may change only in its status
      fields, and an inbound record does not change at all. */
  predicate Evolves(before: seq<Record>, after: seq<Record>) {
    && |before| <= |after|
    && forall i :: 0 <= i < |before| ==>
         && SameOrigin(before[i], after[i])
         && (before[i].direction == In ==> after[i] == before[i])
  }

  lemma EvolvesTransitive(a: seq<Record>, b: seq<Record>, c: seq<Record>)
    requires Evolves(a, b) && Evolves(b, c)
    ensures Evolves(a, c)
  {
    forall i | 0 <= i < |a|
      ensures SameOrigin(a[i], c[i])
    {
      assert SameOrigin(a[i], b[i]) && SameOrigin(b[i], c[i]);
    }
  }

  /** Every record of the sequence is inbound. */
  predicate AllInbound(rs: seq<Record>) {
    forall i :: 0 <= i < |rs| ==> rs[i].direction == In
  }

  /** Records appended as inbound survive any later evolution unchanged. */
  lemma EvolvesKeepsInbound(a: seq<Record>, b: seq<Record>, n: nat)
    requires Evolves(a, b) && n <= |a| && AllInbound(a[n..])
    ensures b[n..|a|] == a[n..]
  {
    forall i | n <= i < |a|
      ensures b[i] == a[i]
    {
      assert a[n..][i - n] == a[i];
    }
  }

  lemma AppendAssoc(a: seq<Record>, b: seq<Record>, c: seq<Record>)
    ensures a + b + c == a + (b + c)
  {
  }

  lemma UpdateBeforeTail(a: seq<Record>, t: seq<Record>, k: nat, r: Record)
    requires k < |a|
    ensures (a + t)[k := r] == a[k := r] + t
  {
  }

  /** The store after a handler ran: `Aborted` when a Python exception ended the
      request early. Work done before the exception stays in the store. */
  datatype Processed = Done(store: seq<Record>) | Aborted(store: seq<Record>)
  {
    /** The same outcome with `tail` appended to the store. */
    function Extend(tail: seq<Record>): Processed {
      match this
      case Done(s) => Done(s + tail)
      case Aborted(s) => Aborted(s + tail)
    }
  }

  datatype Response = Response(code: int, body: string)

  /** The four environment settings; `apiVersion` defaults to "v19.0" when unset. */
  datatype Config = Config(
    apiVersion: string,
    phoneNumberId: Option<string>,
    accessToken: Option<string>,
    verifyToken: Option<string>)
}

=== FILE: strings.dfy ===
/** String helpers for the Python operations the handlers rely on: truthiness,
    `str.upper()` and the code-point order `sorted` uses on timestamp strings. */
module Strings {
  import opened Wrappers

  /** Python truthiness of an optional string: present and non-empty. */
  predicate Truthy(o: Option<string>) {
    o.Some? && o.value != []
  }

  /** The rendering of an optional value inside an f-string: `None` prints as "None". */
  function Show(o: Option<string>): string {
    o.GetOr("None")
  }

  predicate IsLower(c: char) {
    'a' <= c <= 'z'
  }

  function UpperChar(c: char): char {
    if IsLower(c) then (c as int - 32) as char else c
  }

  /** `str.upper()` restricted to ASCII letters. */
  function Upper(s: string): (u: string)
    ensures |u| == |s|
    ensures forall i :: 0 <= i < |u| ==> !IsLower(u[i])
    ensures forall i :: 0 <= i < |s| && !IsLower(s[i]) ==> u[i] == s[i]
    ensures forall i :: 0 <= i < |s| && IsLower(s[i]) ==> u[i] as int == s[i] as int - 32
  {
    if s == [] then [] else [UpperChar(s[0])] + Upper(s[1..])
  }

  /** Python's `<=` on strings: lexicographic by code point, a prefix sorting first. */
  predicate LessEq(a: string, b: string)
    decreases |a|
  {
    |a| == 0 || (|b| > 0 && (a[0] < b[0] || (a[0] == b[0] && LessEq(a[1..], b[1..]))))
  }

  lemma {:induction false} LessEqReflexive(a: string)
    ensures LessEq(a, a)
    decreases |a|
  {
    if |a| > 0 {
      LessEqReflexive(a[1..]);
    }
  }

  lemma {:induction false} LessEqTotal(a: string, b: string)
    ensures LessEq(a, b) || LessEq(b, a)
    decreases |a|
  {
    if |a| > 0 && |b| > 0 && a[0] == b[0] {
      LessEqTotal(a[1..], b[1..]);
    }
  }

  lemma {:induction false} LessEqTransitive(a: string, b: string, c: string)
    requires LessEq(a, b) && LessEq(b, c)
    ensures LessEq(a, c)
    decreases |a|
  {
    if |a| > 0 && a[0] == b[0] && b[0] == c[0] {
      LessEqTransitive(a[1..], b[1..], c[1..]);
    }
  }

  lemma {:induction false} LessEqAntisymmetric(a: string, b: string)
    requires LessEq(a, b) && LessEq(b, a)
    ensures a == b
    decreases |a|
  {
    if |a| > 0 {
      LessEqAntisymmetric(a[1..], b[1..]);
      assert a == [a[0]] + a[1..];
      assert b == [b[0]] + b[1..];
    }
  }
}

=== FILE: webhook.dfy ===
/** The `/webhook` endpoint: the walk over a POSTed payload (entries, changes,
    then messages or statuses), the response it yields, and the GET handshake. */
module Webhook {
  import opened Wrappers
  import opened Strings
  import opened Store
  import opened Inbound
  import opened Status

  /** A change's `value`: `None` for a key that is absent, `Some([])` for an empty list. */
  datatype Value = Value(messages: Option<seq<InMessage>>, statuses: Option<seq<StatusEvent>>)
  datatype Change = Change(field: Option<string>, value: Value)
  /** An entry's `changes` list; an absent list is the empty one (`get('changes', [])`). */
  datatype Entry = Entry(changes: seq<Change>)
  datatype Payload = Payload(objectKind: Option<string>, entries: seq<Entry>)

  const BusinessAccount := "whatsapp_business_account"

  /** One change. Its statuses are looked at only when its value has no
      `messages` key at all. */
  function ProcessChange(store: seq<Record>, c: Change, now: string, epochToIso: string -> Option<string>): (p: Processed)
    ensures c.field != Some("messages") ==> p == Done(store)
    ensures c.value.messages.Some? ==> store <= p.store
    ensures c.field == Some("messages") && c.value.messages.Some? ==> p == ProcessMessages(store, c.value.messages.value, now)
    ensures c.field == Some("messages") && c.value.messages.None? && c.value.statuses.Some? ==>
      p == ProcessStatuses(store, c.value.statuses.value, epochToIso)
    ensures c.field == Some("messages") && c.value.messages.None? && c.value.statuses.None? ==> p == Done(store)
    ensures Evolves(store, p.store)
  {
    if c.field != Some("messages") then Done(store)
    else if c.value.messages.Some? then ProcessMessages(store, c.value.messages.value, now)
    else if c.value.statuses.Some? then ProcessStatuses(store, c.value.statuses.value, epochToIso)
    else Done(store)
  }

  function ProcessChanges(store: seq<Record>, cs: seq<Change>, now: string, epochToIso: string -> Option<string>): (p: Processed)
    ensures Evolves(store, p.store)
    decreases |cs|
  {
    if cs == [] then Done(store)
    else
      match ProcessChange(store, cs[0], now, epochToIso)
      case Aborted(s) => Aborted(s)
      case Done(s) =>
        var p := ProcessChanges(s, cs[1..], now, epochToIso);
        EvolvesTransitive(store, s, p.store);
        p
  }

  function ProcessEntries(store: seq<Record>, es: seq<Entry>, now: string, epochToIso: string -> Option<string>): (p: Processed)
    ensures Evolves(store, p.store)
    decreases |es|
  {
    if es == [] then Done(store)
    else
      match ProcessChanges(store, es[0].changes, now, epochToIso)
      case Aborted(s) => Aborted(s)
      case Done(s) =>
        var p := ProcessEntries(s, es[1..], now, epochToIso);
        EvolvesTransitive(store, s, p.store);
        p
  }

  /** The POST body walk; a payload for another object type is ignored. */
  function ProcessPayload(store: seq<Record>, p: Payload, now: string, epochToIso: string -> Option<string>): (r: Processed)
    ensures p.objectKind != Some(BusinessAccount) ==> r == Done(store)
    ensures Evolves(store, r.store)
  {
    if p.objectKind == Some(BusinessAccount) then ProcessEntries(store, p.entries, now, epochToIso)
    else Done(store)
  }

  datatype Handled = Handled(store: seq<Record>, response: Response)

  /** The POST branch: "EVENT_RECEIVED" with 200 when the walk completes, "ERROR"
      with 500 when it raised; either way the store keeps what was done before. */
  function ReceiveWebhook(store: seq<Record>, p: Payload, now: string, epochToIso: string -> Option<string>): (h: Handled)
    ensures h.store == ProcessPayload(store, p, now, epochToIso).store
    ensures h.response == Response(200, "EVENT_RECEIVED") || h.response == Response(500, "ERROR")
    ensures h.response.code == 200 <==> ProcessPayload(store, p, now, epochToIso).Done?
    ensures p.objectKind != Some(BusinessAccount) ==> h == Handled(store, Response(200, "EVENT_RECEIVED"))
  {
    match ProcessPayload(store, p, now, epochToIso)
    case Done(s) => Handled(s, Response(200, "EVENT_RECEIVED"))
    case Aborted(s) => Handled(s, Response(500, "ERROR"))
  }

  /** Whatever a change carries under `statuses` is irrelevant once it carries a
      `messages` key, even an empty one. */
  lemma StatusesIgnoredBesideMessages(store: seq<Record>, field: Option<string>, msgs: seq<InMessage>,
                                      st1: Option<seq<StatusEvent>>, st2: Option<seq<StatusEvent>>,
                                      now: string, epochToIso: string -> Option<string>)
    ensures ProcessChange(store, Change(field, Value(Some(msgs), st1)), now, epochToIso)
         == ProcessChange(store, Change(field, Value(Some(msgs), st2)), now, epochToIso)
  {
  }

  // ---- Reference definition of what a status-free payload appends ----

  /** The change only appends: any messages it carries all have a type, and if
      it carries none it carries no statuses either. */
  predicate AppendOnlyChange(c: Change) {
    c.field == Some("messages") ==>
      if c.value.messages.Some? then
        forall i :: 0 <= i < |c.value.messages.value| ==> c.value.messages.value[i].msgType.Some?
      else c.value.statuses.None?
  }

  predicate AppendOnlyChanges(cs: seq<Change>) {
    forall i :: 0 <= i < |cs| ==> AppendOnlyChange(cs[i])
  }

  predicate AppendOnlyEntries(es: seq<Entry>) {
    forall i :: 0 <= i < |es| ==> AppendOnlyChanges(es[i].changes)
  }

  function ChangeRecords(c: Change, now: string): seq<Record> {
    if c.field == Some("messages") && c.value.messages.Some? then Normalized(c.value.messages.value, now)
    else []
  }

  function ChangesRecords(cs: seq<Change>, now: string): seq<Record>
    decreases |cs|
  {
    if cs == [] then [] else ChangeRecords(cs[0], now) + ChangesRecords(cs[1..], now)
  }

  function EntriesRecords(es: seq<Entry>, now: string): seq<Record>
    decreases |es|
  {
    if es == [] then [] else ChangesRecords(es[0].changes, now) + EntriesRecords(es[1..], now)
  }

  /** The records a payload yields, in entry, then change, then message order. */
  function PayloadRecords(p: Payload, now: string): seq<Record> {
    if p.objectKind == Some(BusinessAccount) then EntriesRecords(p.entries, now) else []
  }

  lemma ChangeAppends(store: seq<Record>, c: Change, now: string, epochToIso: string -> Option<string>)
    requires AppendOnlyChange(c)
    ensures ProcessChange(store, c, now, epochToIso) == Done(store + ChangeRecords(c, now))
  {
    if c.field == Some("messages") && c.value.messages.Some? {
      var msgs := c.value.messages.value;
      ProcessMessagesAppends(store, msgs, now);
      assert FirstUntyped(msgs) == |msgs|;
    } else {
      assert store + [] == store;
    }
  }

  lemma {:induction false} ChangesAppend(store: seq<Record>, cs: seq<Change>, now: string, epochToIso: string -> Option<string>)
    requires AppendOnlyChanges(cs)
    ensures ProcessChanges(store, cs, now, epochToIso) == Done(store + ChangesRecords(cs, now))
    decreases |cs|
  {
    if cs == [] {
      assert store + [] == store;
    } else {
      var s := store + ChangeRecords(cs[0], now);
      assert ProcessChanges(store, cs, now, epochToIso) == ProcessChanges(s, cs[1..], now, epochToIso) by {
        assert AppendOnlyChange(cs[0]);
        ChangeAppends(store, cs[0], now, epochToIso);
      }
      assert AppendOnlyChanges(cs[1..]) by {
        forall i | 0 <= i < |cs[1..]| ensures AppendOnlyChange(cs[1..][i]) {
          assert cs[1..][i] == cs[i + 1];
        }
      }
      ChangesAppend(s, cs[1..], now, epochToIso);
      AppendAssoc(store, ChangeRecords(cs[0], now), ChangesRecords(cs[1..], now));
    }
  }

  lemma {:induction false} EntriesAppend(store: seq<Record>, es: seq<Entry>, now: string, epochToIso: string -> Option<string>)
    requires AppendOnlyEntries(es)
    ensures ProcessEntries(store, es, now, epochToIso) == Done(store + EntriesRecords(es, now))
    decreases |es|
  {
    if es == [] {
      assert store + [] == store;
    } else {
      var s := store + ChangesRecords(es[0].changes, now);
      assert ProcessEntries(store, es, now, epochToIso) == ProcessEntries(s, es[1..], now, epochToIso) by {
        assert AppendOnlyChanges(es[0].changes);
        ChangesAppend(store, es[0].changes, now, epochToIso);
      }
      assert AppendOnlyEntries(es[1..]) by {
        forall i | 0 <= i < |es[1..]| ensures AppendOnlyChanges(es[1..][i].changes) {
          assert es[1..][i] == es[i + 1];
        }
      }
      EntriesAppend(s, es[1..], now, epochToIso);
      AppendAssoc(store, ChangesRecords(es[0].changes, now), EntriesRecords(es[1..], now));
    }
  }

  /** A payload without status work and without untyped messages appends exactly
      its records, in payload order, after the untouched old store. */
  lemma PayloadAppends(store: seq<Record>, p: Payload, now: string, epochToIso: string -> Option<string>)
    requires AppendOnlyEntries(p.entries)
    ensures ProcessPayload(store, p, now, epochToIso) == Done(store + PayloadRecords(p, now))
  {
    if p.objectKind == Some(BusinessAccount) {
      EntriesAppend(store, p.entries, now, epochToIso);
    } else {
      assert store + [] == store;
    }
  }

  /** No deduplication: delivering the same payload twice stores its records twice. */
  lemma ReplayAppendsTwice(store: seq<Record>, p: Payload, now1: string, now2: string, epochToIso: string -> Option<string>)
    requires AppendOnlyEntries(p.entries)
    ensures var once := ProcessPayload(store, p, now1, epochToIso).store;
      ProcessPayload(once, p, now2, epochToIso)
        == Done(store + PayloadRecords(p, now1) + PayloadRecords(p, now2))
  {
    PayloadAppends(store, p, now1, epochToIso);
    PayloadAppends(store + PayloadRecords(p, now1), p, now2, epochToIso);
  }

  // ---- What any payload appends ----

  /** What a run appended after the old store: all of `expected` when it
      completed, a leading part of it when it aborted, inbound records only. */
  predicate AppendedTail(store: seq<Record>, p: Processed, expected: seq<Record>) {
    && |store| <= |p.store|
    && AllInbound(p.store[|store|..])
    && (p.Done? ==> p.store[|store|..] == expected)
    && (p.Aborted? ==> p.store[|store|..] <= expected)
  }

  /** A first run appended `first`; a later run that only evolves the store and
      appends a part of `rest` leaves `first` in place, so together they append
      a part of `first + rest`. */
  lemma TailCompose(store: seq<Record>, s: seq<Record>, q: Processed, first: seq<Record>, rest: seq<Record>)
    requires |store| <= |s| && s[|store|..] == first && AllInbound(first)
    requires Evolves(s, q.store)
    requires AppendedTail(s, q, rest)
    ensures AppendedTail(store, q, first + rest)
  {
    EvolvesKeepsInbound(s, q.store, |store|);
    assert q.store[|store|..] == q.store[|store|..|s|] + q.store[|s|..];
    assert AllInbound(q.store[|store|..]) by {
      forall i | 0 <= i < |q.store[|store|..]|
        ensures q.store[|store|..][i].direction == In
      {
        if i < |s| - |store| {
          assert q.store[|store|..][i] == first[i];
        } else {
          assert q.store[|store|..][i] == q.store[|s|..][i - (|s| - |store|)];
        }
      }
    }
  }

  lemma ChangeTail(store: seq<Record>, c: Change, now: string, epochToIso: string -> Option<string>)
    ensures AppendedTail(store, ProcessChange(store, c, now, epochToIso), ChangeRecords(c, now))
  {
    var p := ProcessChange(store, c, now, epochToIso);
    if c.field == Some("messages") && c.value.messages.Some? {
      var msgs := c.value.messages.value;
      var k := FirstUntyped(msgs);
      ProcessMessagesAppends(store, msgs, now);
      if k < |msgs| {
        NormalizedPrefix(msgs, k, now);
        NormalizedInbound(msgs[..k], now);
        assert p.store[|store|..] == Normalized(msgs[..k], now);
      } else {
        NormalizedInbound(msgs, now);
        assert p.store[|store|..] == Normalized(msgs, now);
      }
    } else {
      assert |p.store| == |store|;
      assert p.store[|store|..] == [];
    }
  }

  lemma {:induction false} ChangesTail(store: seq<Record>, cs: seq<Change>, now: string, epochToIso: string -> Option<string>)
    ensures AppendedTail(store, ProcessChanges(store, cs, now, epochToIso), ChangesRecords(cs, now))
    decreases |cs|
  {
    if cs == [] {
      assert store[|store|..] == [];
    } else {
      ChangeTail(store, cs[0], now, epochToIso);
      match ProcessChange(store, cs[0], now, epochToIso)
      case Aborted(s) =>
        assert ChangeRecords(cs[0], now) <= ChangesRecords(cs, now);
      case Done(s) =>
        var q := ProcessChanges(s, cs[1..], now, epochToIso);
        ChangesTail(s, cs[1..], now, epochToIso);
        TailCompose(store, s, q, ChangeRecords(cs[0], now), ChangesRecords(cs[1..], now));
    }
  }

  lemma {:induction false} EntriesTail(store: seq<Record>, es: seq<Entry>, now: string, epochToIso: string -> Option<string>)
    ensures AppendedTail(store, ProcessEntries(store, es, now, epochToIso), EntriesRecords(es, now))
    decreases |es|
  {
    if es == [] {
      assert store[|store|..] == [];
    } else {
      ChangesTail(store, es[0].changes, now, epochToIso);
      match ProcessChanges(store, es[0].changes, now, epochToIso)
      case Aborted(s) =>
        assert ChangesRecords(es[0].changes, now) <= EntriesRecords(es, now);
      case Done(s) =>
        var q := ProcessEntries(s, es[1..], now, epochToIso);
        EntriesTail(s, es[1..], now, epochToIso);
        TailCompose(store, s, q, ChangesRecords(es[0].changes, now), EntriesRecords(es[1..], now));
    }
  }

  /** For every payload, status events included: a completed walk appends exactly
      the payload's records, in entry, change, message order, after the old
      records; an aborted walk appends a leading part of them. */
  lemma PayloadTail(store: seq<Record>, p: Payload, now: string, epochToIso: string -> Option<string>)
    ensures var r := ProcessPayload(store, p, now, epochToIso);
      && |store| <= |r.store|
      && (r.Done? ==> |r.store| == |store| + |PayloadRecords(p, now)| && r.store[|store|..] == PayloadRecords(p, now))
      && (r.Aborted? ==> r.store[|store|..] <= PayloadRecords(p, now))
  {
    if p.objectKind == Some(BusinessAccount) {
      EntriesTail(store, p.entries, now, epochToIso);
    } else {
      assert store[|store|..] == [];
    }
  }

  /** No deduplication, for every payload: when two deliveries of the same payload
      both complete, the store has gained its records twice, in delivery order. */
  lemma ReplayStoresTwice(store: seq<Record>, p: Payload, now1: string, now2: string, epochToIso: string -> Option<string>)
    ensures var r1 := ProcessPayload(store, p, now1, epochToIso);
      var r2 := ProcessPayload(r1.store, p, now2, epochToIso);
      r1.Done? && r2.Done? ==>
        r2.store[|store|..] == PayloadRecords(p, now1) + PayloadRecords(p, now2)
  {
    var r1 := ProcessPayload(store, p, now1, epochToIso);
    var r2 := ProcessPayload(r1.store, p, now2, epochToIso);
    if r1.Done? && r2.Done? {
      if p.objectKind == Some(BusinessAccount) {
        EntriesTail(store, p.entries, now1, epochToIso);
        EntriesTail(r1.store, p.entries, now2, epochToIso);
      } else {
        assert store[|store|..] == [];
      }
      TailCompose(store, r1.store, r2, PayloadRecords(p, now1), PayloadRecords(p, now2));
    }
  }

  // ---- What any payload does to the records already stored ----

  /** The status events a change applies: its `statuses` list when it has no
      `messages` key. */
  function ChangeStatuses(c: Change): seq<StatusEvent> {
    if c.field == Some("messages") && c.value.messages.None? && c.value.statuses.Some? then c.value.statuses.value
    else []
  }

  function ChangesStatuses(cs: seq<Change>): seq<StatusEvent>
    decreases |cs|
  {
    if cs == [] then [] else ChangeStatuses(cs[0]) + ChangesStatuses(cs[1..])
  }

  function EntriesStatuses(es: seq<Entry>): seq<StatusEvent>
    decreases |es|
  {
    if es == [] then [] else ChangesStatuses(es[0].changes) + EntriesStatuses(es[1..])
  }

  /** The status events a payload applies, in entry, then change, then event order. */
  function PayloadStatuses(p: Payload): seq<StatusEvent> {
    if p.objectKind == Some(BusinessAccount) then EntriesStatuses(p.entries) else []
  }

  /** A completed run is the status loop over `evs` (which completes too) followed
      by appending `recs`. */
  predicate StatusesThenAppends(store: seq<Record>, r: Processed, evs: seq<StatusEvent>, recs: seq<Record>,
                                epochToIso: string -> Option<string>) {
    r.Done? ==>
      && ProcessStatuses(store, evs, epochToIso).Done?
      && r.store == ProcessStatuses(store, evs, epochToIso).store + recs
  }

  lemma ChangeEffect(store: seq<Record>, c: Change, now: string, epochToIso: string -> Option<string>)
    ensures StatusesThenAppends(store, ProcessChange(store, c, now, epochToIso), ChangeStatuses(c), ChangeRecords(c, now), epochToIso)
  {
    if c.field == Some("messages") && c.value.messages.Some? {
      ProcessMessagesAppends(store, c.value.messages.value, now);
    } else {
      assert ProcessChange(store, c, now, epochToIso).store + [] == ProcessChange(store, c, now, epochToIso).store;
    }
  }

  /** A first run that applied `first` and appended inbound `recs`, then a run
      that applied `rest` and appended `more`, together apply `first + rest`
      and append `recs + more`: the later events cannot touch the appended
      records. */
  lemma EffectCompose(store: seq<Record>, s: seq<Record>, q: Processed, first: seq<StatusEvent>, recs: seq<Record>,
                      rest: seq<StatusEvent>, more: seq<Record>, epochToIso: string -> Option<string>)
    requires StatusesThenAppends(store, Done(s), first, recs, epochToIso)
    requires AllInbound(recs)
    requires StatusesThenAppends(s, q, rest, more, epochToIso)
    ensures StatusesThenAppends(store, q, first + rest, recs + more, epochToIso)
  {
    if q.Done? {
      var t := ProcessStatuses(store, first, epochToIso).store;
      StatusesBesideInbound(t, recs, rest, epochToIso);
      StatusesConcat(store, first, rest, epochToIso);
      AppendAssoc(ProcessStatuses(t, rest, epochToIso).store, recs, more);
    }
  }

  lemma {:induction false} ChangesEffect(store: seq<Record>, cs: seq<Change>, now: string, epochToIso: string -> Option<string>)
    ensures StatusesThenAppends(store, ProcessChanges(store, cs, now, epochToIso), ChangesStatuses(cs), ChangesRecords(cs, now), epochToIso)
    decreases |cs|
  {
    if cs != [] {
      ChangeEffect(store, cs[0], now, epochToIso);
      match ProcessChange(store, cs[0], now, epochToIso)
      case Aborted(s) =>
      case Done(s) =>
        ChangeTail(store, cs[0], now, epochToIso);
        ChangesEffect(s, cs[1..], now, epochToIso);
        EffectCompose(store, s, ProcessChanges(s, cs[1..], now, epochToIso), ChangeStatuses(cs[0]), ChangeRecords(cs[0], now),
                      ChangesStatuses(cs[1..]), ChangesRecords(cs[1..], now), epochToIso);
    }
  }

  lemma {:induction false} EntriesEffect(store: seq<Record>, es: seq<Entry>, now: string, epochToIso: string -> Option<string>)
    ensures StatusesThenAppends(store, ProcessEntries(store, es, now, epochToIso), EntriesStatuses(es), EntriesRecords(es, now), epochToIso)
    decreases |es|
  {
    if es != [] {
      ChangesEffect(store, es[0].changes, now, epochToIso);
      match ProcessChanges(store, es[0].changes, now, epochToIso)
      case Aborted(s) =>
      case Done(s) =>
        ChangesTail(store, es[0].changes, now, epochToIso);
        EntriesEffect(s, es[1..], now, epochToIso);
        EffectCompose(store, s, ProcessEntries(s, es[1..], now, epochToIso), ChangesStatuses(es[0].changes),
                      ChangesRecords(es[0].changes, now), EntriesStatuses(es[1..]), EntriesRecords(es[1..], now), epochToIso);
    }
  }

  /** For every payload: a completed walk leaves the records stored before it
      exactly as the status loop over all the payload's status events leaves
      them, and that loop completes; the payload's own records follow. */
  lemma PayloadStatusesApplied(store: seq<Record>, p: Payload, now: string, epochToIso: string -> Option<string>)
    ensures var r := ProcessPayload(store, p, now, epochToIso);
      var s := ProcessStatuses(store, PayloadStatuses(p), epochToIso);
      r.Done? ==> s.Done? && r.store[..|store|] == s.store && r.store == s.store + PayloadRecords(p, now)
  {
    if p.objectKind == Some(BusinessAccount) {
      EntriesEffect(store, p.entries, now, epochToIso);
    } else {
      assert store + [] == store;
    }
  }

  // ---- What an aborted walk keeps ----

  /** An aborted change loop ends exactly in the state its first failing change
      left, after every earlier change completed. */
  lemma {:induction false} ChangesAbortState(store: seq<Record>, cs: seq<Change>, now: string, epochToIso: string -> Option<string>)
    ensures var r := ProcessChanges(store, cs, now, epochToIso);
      r.Aborted? ==>
        exists j :: 0 <= j < |cs| && ProcessChanges(store, cs[..j], now, epochToIso).Done? &&
          r == ProcessChange(ProcessChanges(store, cs[..j], now, epochToIso).store, cs[j], now, epochToIso)
    decreases |cs|
  {
    if cs != [] {
      assert cs[..0] == [];
      match ProcessChange(store, cs[0], now, epochToIso)
      case Aborted(s) =>
        assert ProcessChanges(store, cs[..0], now, epochToIso) == Done(store);
      case Done(s) =>
        var rest := cs[1..];
        ChangesAbortState(s, rest, now, epochToIso);
        if ProcessChanges(s, rest, now, epochToIso).Aborted? {
          var j :| 0 <= j < |rest| && ProcessChanges(s, rest[..j], now, epochToIso).Done? &&
            ProcessChanges(s, rest, now, epochToIso) == ProcessChange(ProcessChanges(s, rest[..j], now, epochToIso).store, rest[j], now, epochToIso);
          assert cs[..j + 1][1..] == rest[..j];
          assert ProcessChanges(store, cs[..j + 1], now, epochToIso) == ProcessChanges(s, rest[..j], now, epochToIso);
          assert cs[j + 1] == rest[j];
        }
    }
  }

  /** An aborted entry loop ends exactly in the state its first failing entry's
      change loop left, after every earlier entry completed. */
  lemma {:induction false} EntriesAbortState(store: seq<Record>, es: seq<Entry>, now: string, epochToIso: string -> Option<string>)
    ensures var r := ProcessEntries(store, es, now, epochToIso);
      r.Aborted? ==>
        exists j :: 0 <= j < |es| && ProcessEntries(store, es[..j], now, epochToIso).Done? &&
          r == ProcessChanges(ProcessEntries(store, es[..j], now, epochToIso).store, es[j].changes, now, epochToIso)
    decreases |es|
  {
    if es != [] {
      assert es[..0] == [];
      match ProcessChanges(store, es[0].changes, now, epochToIso)
      case Aborted(s) =>
        assert ProcessEntries(store, es[..0], now, epochToIso) == Done(store);
      case Done(s) =>
        var rest := es[1..];
        EntriesAbortState(s, rest, now, epochToIso);
        if ProcessEntries(s, rest, now, epochToIso).Aborted? {
          var j :| 0 <= j < |rest| && ProcessEntries(s, rest[..j], now, epochToIso).Done? &&
            ProcessEntries(s, rest, now, epochToIso) == ProcessChanges(ProcessEntries(s, rest[..j], now, epochToIso).store, rest[j].changes, now, epochToIso);
          assert es[..j + 1][1..] == rest[..j];
          assert ProcessEntries(store, es[..j + 1], now, epochToIso) == ProcessEntries(s, rest[..j], now, epochToIso);
          assert es[j + 1] == rest[j];
        }
    }
  }

  // ---- GET: subscription handshake ----

  /** Flask's answer to a view that returned no body. Only its status code is
      modelled; the body stands for Flask's error page. */
  const ServerError := Response(500, "Internal Server Error")

  /** The handshake as written: the token comparison is between two optional
      values, so an unset verify token matches a request that sends none. A
      missing challenge makes the view return `None`, which Flask answers with 500. */
  function VerifyAsWritten(cfg: Config, mode: Option<string>, token: Option<string>, challenge: Option<string>): (r: Response)
    ensures r.code == 403 <==> !(mode == Some("subscribe") && token == cfg.verifyToken)
    ensures r.code == 200 <==> mode == Some("subscribe") && token == cfg.verifyToken && challenge.Some?
    ensures r.code == 200 ==> r.body == challenge.value
    ensures r.code == 403 ==> r.body == "Verification failed"
    ensures mode == Some("subscribe") && token == cfg.verifyToken && challenge.None? ==> r.code == 500
  {
    if mode == Some("subscribe") && token == cfg.verifyToken then
      if challenge.Some? then Response(200, challenge.value) else ServerError
    else Response(403, "Verification failed")
  }

  /** The handler as written accepts a handshake that presents the same absent or empty token
      as an unset or empty configuration, which the program elsewhere treats as
      "not configured"; the corrected handshake rejects it. */
  lemma UnsetTokenAcceptsAnyone(cfg: Config, challenge: string)
    requires !Truthy(cfg.verifyToken)
    ensures VerifyAsWritten(cfg, Some("subscribe"), cfg.verifyToken, Some(challenge)) == Response(200, challenge)
    ensures Verify(cfg, Some("subscribe"), cfg.verifyToken, Some(challenge)).code == 403
  {
  }

  /** The handshake as intended: it succeeds only against a configured,
      non-empty verify token. */
  function Verify(cfg: Config, mode: Option<string>, token: Option<string>, challenge: Option<string>): (r: Response)
    ensures r.code == 200 <==>
      mode == Some("subscribe") && Truthy(cfg.verifyToken) && token == cfg.verifyToken && challenge.Some?
    ensures r.code == 200 ==> r.body == challenge.value
    ensures r.code == 403 ==> r.body == "Verification failed"
    ensures r.code == 403 || r.code == 200 || r.code == 500
    ensures Truthy(cfg.verifyToken) ==> r == VerifyAsWritten(cfg, mode, token, challenge)
  {
    if !Truthy(cfg.verifyToken) then Response(403, "Verification failed")
    else VerifyAsWritten(cfg, mode, token, challenge)
  }
}

=== FILE: wrappers.dfy ===
/** Optional values, standing in for Python's `None` and for JSON keys that may be absent. */
module Wrappers {

  /** `None` models both an absent key (`dict.get` returning `None`) and an explicit `null`. */
  datatype Option<T> = None | Some(value: T) {

    /** The wrapped value, or `default` when absent: Python's `d.get(key, default)`. */
    function GetOr(default: T): T {
      match this
      case Some(v) => v
      case None => default
    }
  }
}
